=== FILE: README.md ===
# paperless-ngx ASN label generator: placement core in Dafny

The program prints archive serial number (ASN) labels for paperless-ngx
onto adhesive label sheets (Avery Zweckform L4731: 7 x 27 labels of
25.4 mm x 10 mm on A4). Each label carries a code and a text such as
`ASN0000042`. This project models the arithmetic behind the PDF it writes:

- the sheet geometry;
- the label text (prefix plus zero-padded running number);
- the input checks;
- the pagination and row-major placement of the labels, with calibration;
- the running number across pages.

It also models three pieces of logic around the form:

- the label/sheet amount;
- the fixed calibration baseline added to the user's deltas;
- the migration of stored calibration values from the older
  "absolute" convention to deltas.

Modules, one per concern:

- `Results` (`results.dfy`): `Option` and `Result`.
- `Decimal` (`decimal.dfy`): decimal digits, their value, zero padding.
- `AsnText` (`asn_text.dfy`): `make_asn_text` and a reader for its output.
- `Sheet` (`sheet.dfy`): units (points, mm, cm, A4), `SheetLayout`, `AVERY_L4731`.
- `Pagination` (`pagination.dfy`): ceiling division, row-major cells.
- `Generate` (`generate.dfy`): `generate_pdf`. Drawing is replaced by an
  emitted `Placement(page, row, col, x, y, text)`. The document is one
  sequence of placements per page; the result is the document, the page
  count and the next number.
- `Settings` (`settings.dfy`): `BASE_CALIBRATION_MM`, `_calibration`, the
  calibration part of `_apply_settings_from_dict` and `_settings_to_dict`,
  `DEFAULT_SETTINGS`, and `_effective_count_and_pages`.

Lengths are Dafny `real`, so the geometry is exact. 1 mm is 72/25.4 points,
as in the PDF library's unit constants. Nothing is claimed about the
program's floating-point results bit for bit.

The page loop and the label loop are modelled as two recursive functions
that follow the source's loops: `FillPages` is the outer loop with
`min(remaining, labels_per_page)`; `FillPage` is the inner loop that
increments `current`. They are related to a closed form, `Expected`,
which says label `k` of the run sits at index `k mod perPage` of page
`k div perPage` and carries number `start + k`. The loops take the
per-label drawing as a function parameter (`LabelAt` supplies the real
one), so their properties hold for whatever is drawn per label.

The migration heuristic is modelled as written, with the `1e-9`
tolerance read as exact zero. An untagged
record whose present calibration values all read as 0 is taken as deltas.
A genuine legacy record of absolute zeros is therefore not converted.
`DefaultsAreNeutral` shows why the heuristic exists: the defaults carry no
tag, so without it a reset would load the negated baseline instead of zero
deltas.

The program checks nothing about a layout. The model asks only for at
least one column and one row (`SheetLayout.Valid`), the least the page
count and the row/column split need.

## Model

| member | source | states |
|---|---|---|
| Decimal.DigitsCanonical | src/paperless_asn_label_generator/app.py:84-85 | the decimal conversion of a number is non-empty, all digits, and has no superfluous leading zero |
| Decimal.ValueOfDigits | src/paperless_asn_label_generator/app.py:84-85 | the printed digits denote the number printed |
| Decimal.DigitsOfValue | src/paperless_asn_label_generator/app.py:84-85 | every canonical digit string is the printed form of its value, so printing is a bijection onto canonical strings |
| Decimal.ZeroPadShape | src/paperless_asn_label_generator/app.py:84-85 | zero padding never truncates: the result has length max(width, length), ends with the original, and is '0' before it |
| Decimal.PaddedValue | src/paperless_asn_label_generator/app.py:84-85 | the zero-padded digits still denote the same number |
| AsnText.NumeralShape | src/paperless_asn_label_generator/app.py:84-85 | the number part is max(width, plain notation) long, the sign counts towards the width and stands before the zeros, and all digits are kept |
| AsnText.MakeAsnTextShape | src/paperless_asn_label_generator/app.py:84-85 | a label text is the whole prefix, then a '-' for a negative number, then zeros, then all digits of the number; its length is the prefix length plus max(leading zeros, length of the plain notation including the sign) |
| AsnText.ParseMakeAsnText | src/paperless_asn_label_generator/app.py:84-85 | reading a label text back past its prefix gives exactly the number it was made from |
| AsnText.MakeAsnTextInjective | src/paperless_asn_label_generator/app.py:84-85 | two different numbers never get the same text (same prefix and width) |
| AsnText.WideNumberUnpadded | src/paperless_asn_label_generator/app.py:84-85 | a number at least as wide as the padding is printed unpadded and untruncated (123456 at width 5 keeps six digits) |
| AsnText.AsnTextPaddedExample | src/paperless_asn_label_generator/app.py:84-85 | "ASN" with 1 at width 5 is "ASN00001" |
| AsnText.AsnTextWideExample | src/paperless_asn_label_generator/app.py:84-85 | "ASN" with 123456 at width 5 is "ASN123456" |
| Sheet.ValidHasLabels | src/paperless_asn_label_generator/app.py:56-58 | a grid with at least one row and column has at least as many labels per page as it has rows or columns |
| Sheet.AveryGeometry | src/paperless_asn_label_generator/app.py:69-81 | the L4731 sheet holds 189 labels per page; its pitches are 27.9 mm across and 10 mm down |
| Pagination.CeilDiv | src/paperless_asn_label_generator/app.py:170 | the page count holds all labels and one page fewer would not |
| Pagination.CeilDivUnique | src/paperless_asn_label_generator/app.py:170 | the page count is the only count that is both sufficient and minimal |
| Pagination.CeilDivStep | src/paperless_asn_label_generator/app.py:184-199 | when more than a page of labels remains, taking a full page leaves exactly one page fewer to fill |
| Pagination.PageSize | src/paperless_asn_label_generator/app.py:169-184 | with the least sufficient page count, page p's share min(count - p * perPage, perPage) is between 1 and perPage, and every page but the last is full |
| Pagination.CeilDivOfMultiple | src/paperless_asn_label_generator/app.py:542 | a whole number of full sheets needs exactly that many pages |
| Pagination.CeilDivExamples | src/paperless_asn_label_generator/app.py:169-170 | 189 labels give 1 page of 189 and 190 labels give 2 |
| Pagination.CellOfInverse | src/paperless_asn_label_generator/app.py:186-188 | the row and column of an index recover it as row * cols + col, with the column inside the grid |
| Pagination.CellInGrid | src/paperless_asn_label_generator/app.py:186-188 | every index below cols * rows lands in a row below rows and a column below cols |
| Pagination.CellOfInjective | src/paperless_asn_label_generator/app.py:186-188 | two labels of one page never share a cell |
| Pagination.CellOfIndex | src/paperless_asn_label_generator/app.py:186-188 | every cell of the grid is filled by the index row * cols + col |
| Pagination.CellExample | src/paperless_asn_label_generator/app.py:186-188 | with 7 columns index 8 is row 1, column 1 |
| Generate.PlaceInCell | src/paperless_asn_label_generator/app.py:186-191 | label index i of a page lands inside the grid, in the cell whose row-major index is i, at that cell's calibrated corner |
| Generate.FillPage | src/paperless_asn_label_generator/app.py:186-196 | the label loop places one label per index, the j-th at index i + j with number current + j, and advances the number by the labels placed |
| Generate.FillPages | src/paperless_asn_label_generator/app.py:183-199 | the page loop finishes one page per iteration |
| Generate.PageStep | src/paperless_asn_label_generator/app.py:184-199 | while pages are left at least one label is left; each page takes at least one, a full page unless it is the last, and one page fewer remains |
| Generate.FillPagesTotals | src/paperless_asn_label_generator/app.py:181-199 | page p takes min(remaining - p * perPage, perPage) labels, the running number advances by all of them, and the remaining count ends at 0 |
| Generate.FillPagesPlacesAll | src/paperless_asn_label_generator/app.py:180-199 | each page's labels carry consecutive numbers starting where the previous page stopped, and every page but the last is full |
| Generate.PagesNumberedAt | src/paperless_asn_label_generator/app.py:180-199 | in pages numbered that way, label i of page p is the one at index i of that page with number current + p * perPage + i |
| Generate.FillPagesInOrder | src/paperless_asn_label_generator/app.py:180-199 | in drawing order the pages hold exactly the remaining labels, and label k sits at index k mod perPage of page k div perPage with number current + k |
| Generate.GeneratePdf | src/paperless_asn_label_generator/app.py:141-202 | the four input checks fail in the source's order, each with its own error and before any page exists; a valid job gets the least sufficient page count, one page per iteration, and next number start + count |
| Generate.GeneratedInOrder | src/paperless_asn_label_generator/app.py:180-202 | a run draws exactly count labels, and the k-th overall is at index k mod perPage of page k div perPage with number start + k |
| Generate.GeneratedNumbering | src/paperless_asn_label_generator/app.py:180-196 | the k-th label's text reads back as start + k with no reset at page boundaries, so no text repeats within a run |
| Generate.RunNumbered | src/paperless_asn_label_generator/app.py:180-199 | a whole run of the page loop: no page exceeds perPage labels and label i of page p has number start + p * perPage + i |
| Generate.GeneratedLabels | src/paperless_asn_label_generator/app.py:180-199 | the same for a successful `generate_pdf` run |
| Generate.GeneratedPagePartition | src/paperless_asn_label_generator/app.py:181-199 | each page holds min(remaining, perPage) labels: all pages but the last are full and the last is non-empty |
| Generate.GeneratedPlacements | src/paperless_asn_label_generator/app.py:186-191 | every placed label lies on its page, inside the grid, in row-major order, at the calibrated corner of its cell |
| Generate.PagesPlaced | src/paperless_asn_label_generator/app.py:186-191 | pages drawn that way put every label inside the grid, row-major, at its cell's calibrated corner |
| Generate.ZeroCalibrationIsBase | src/paperless_asn_label_generator/app.py:173-176 | all-zero deltas give the base pitch, no offset, and corners at margin plus whole base pitches |
| Generate.CalibrationShift | src/paperless_asn_label_generator/app.py:190-191 | any calibration moves a corner by (col * pitch delta + x offset) mm right and (y offset - row * pitch delta) mm up from its uncalibrated position |
| Generate.UniformPitch | src/paperless_asn_label_generator/app.py:190-191 | adjacent columns are one effective column pitch apart and each row lies one effective row pitch below the previous one |
| Generate.AveryPageCounts | src/paperless_asn_label_generator/app.py:169-170 | on the L4731 sheet, 189 labels from 1 give one page and next number 190; 190 labels give two pages |
| Settings.EffectiveCalibration | src/paperless_asn_label_generator/app.py:563-577 | the printing calibration is the baseline plus each field's delta; the first non-numeric field in form order is reported |
| Settings.NeutralFieldsPrintBaseline | src/paperless_asn_label_generator/app.py:570-577 | zero user deltas print with exactly the baseline calibration |
| Settings.LoadDeltaKeepsValues | src/paperless_asn_label_generator/app.py:306-322 | a "delta" record, or an untagged one whose values all read as 0, keeps its stored values; absent keys leave their field unchanged |
| Settings.LoadLegacyConverts | src/paperless_asn_label_generator/app.py:306-322 | any other record is legacy absolute: each numeric value becomes value minus the baseline of its key, non-numeric ones are kept, absent keys leave their field |
| Settings.LegacyRoundTrip | src/paperless_asn_label_generator/app.py:314-322 | migrating a complete legacy record and re-adding the baseline prints with exactly the absolute values it held |
| Settings.SaveLoadRoundTrip | src/paperless_asn_label_generator/app.py:285-300 | saving the settings and loading them back restores every calibration field, whatever the fields held before |
| Settings.DefaultsAreNeutral | src/paperless_asn_label_generator/app.py:204-218 | loading the defaults gives zero deltas, so printing uses exactly the baseline |
| Settings.EffectiveCountAndPages | src/paperless_asn_label_generator/app.py:536-549 | only the active mode's field is read; a missing number and a non-positive number each get their own error for that field; in sheet mode every sheet is full, otherwise the sheet count is the least that holds the labels |
| Settings.PagesShownArePagesGenerated | src/paperless_asn_label_generator/app.py:536-549 | the sheet count derived in the form is the page count the generator produces for that label count |

## Left out

- Drawing: `draw_label` and the canvas calls (`rect`, `drawImage`,
  `drawString`, `showPage`, `save`) belong to the PDF library. Each label
  becomes a `Placement`; each `showPage` closes one page of the document.
- The code symbol and its sizing: QR and Code 128 rendering
  (`make_qr_image`, `code128.Code128`) and the font size clamp in
  `draw_label`. These are library calls and floating-point sizing.
- The PIL preview (`_render_preview_image`, `_update_preview`,
  `_current_text`) and the Tk form (`_build_ui`, `_apply_mode`, status
  labels, dialogs, `on_generate_pdf`, `on_open_folder`). These are UI.
- Settings persistence: `_config_path`, `_load_settings`,
  `_save_settings_now`, JSON I/O, the atomic temp-file replace, and the
  file deletion in `on_reset_config`. This is filesystem I/O. The defaults
  that a reset loads are covered by `DefaultsAreNeutral`.
- The autosave debounce (`_schedule_save`, `_install_autosave_traces`).
  It is event-loop scheduling.
- Number parsing (`_parse_int`, `_parse_float`, `_coerce_float`). These
  wrap Python's number parsing. Parsed values are inputs; `None` stands
  for text that does not parse.
- Generate.GeneratePdf: requires a layout with at least one column and
  one row. With a zero product the source raises ZeroDivisionError. With
  a negative product (exactly one of them negative) it draws no label and
  returns a page count of at most 0 and the start number. With both
  negative it draws labels outside the grid. The only layout the program
  passes is `AVERY_L4731`.
- Generate.GeneratePdf: succeeds for any non-negative padding width. In
  the program a width above `sys.maxsize` makes the format raise
  ValueError ("Too many decimal digits in format string") while the
  first label is formatted, after the canvas already exists; smaller
  but still huge widths run out of memory. Neither is modelled, and
  `AsnText.MakeAsnTextShape` states a length for every natural width.
- Generate.GeneratePdf: the page width and the border flag only affect
  drawing, so they are not modelled. The file path and the code kind are
  not modelled either. They are passed to library calls that can fail,
  as the next line says.
- Generate.GeneratePdf: failures inside the abstracted PDF and code
  library calls are not modelled. In the program they raise after the
  canvas exists, and the model's `Ok` does not reflect them.
  `c.save()` raises OSError on an unwritable path or a missing directory,
  after every page has been drawn; the form then shows the error and
  does not advance the start number. With the QR code kind, a text
  longer than the largest QR symbol holds at level M (5596 digits, for
  example with 6000 leading zeros) raises DataOverflowError while that
  label is drawn.
- Generate.GeneratePdf: a label number of more than 4300 decimal digits
  is not modelled as an error. Python refuses to convert such an int to
  text, so formatting that label raises ValueError after the canvas
  exists and after the labels before it were drawn. The model formats
  every integer.
- Pagination.CeilDiv: exact integer ceiling. The source divides in
  floating point before `math.ceil`, which can differ only for counts
  above 2^53.
- AsnText.MakeAsnText: the padding width is a natural number. A
  negative width is a Python format error, and both callers reject it
  before formatting. A width above `sys.maxsize` is a format error too,
  and so is a number of more than 4300 decimal digits. Neither caller
  rejects these; see the `Generate.GeneratePdf` lines above.
- Settings.LoadCalibration: the tag is taken already normalised
  (`str(...).strip().lower()`, "" when absent). The tolerance
  `abs(v) < 1e-9` is modelled as `v == 0`. The non-calibration keys
  (start, mode, count, pages, prefix, zeros, kind) are copied via
  `str(...)`, and `border` via `bool(...)`; they are not modelled.
- Settings.LegacyRoundTrip: exact in `real` arithmetic. In the program,
  floating-point subtraction and re-addition of the baseline can be off
  in the last bit.

=== FILE: asn_text.dfy ===
/** The human-readable archive serial number (ASN) printed on a label:
    a literal prefix followed by the running number in decimal, padded
    with zeros to a minimum width, as Python's `{number:0{width}d}`
    formats it. */
module AsnText {
  import opened Results
  import opened Decimal

  function Abs(n: int): nat {
    if n < 0 then -n else n
  }

  /** Shortest notation of `number`, with its sign. */
  function PlainNumeral(number: int): string {
    if number < 0 then "-" + Digits(-number) else Digits(number)
  }

  /** The number part: zero-padded to `width` characters, the sign (if
      any) counting towards the width and standing before the zeros. */
  function Numeral(number: int, width: nat): string {
    if number < 0 then "-" + ZeroPad(Digits(-number), width - 1)
    else ZeroPad(Digits(number), width)
  }

  /** `make_asn_text`: the prefix followed by the number part. */
  function MakeAsnText(prefix: string, number: int, leadingZeros: nat): string {
    prefix + Numeral(number, leadingZeros)
  }

  /** The number part is never cut to the width: it is as long as the
      longer of the width and the plain notation, it ends with all the
      digits of the number, and what stands between the sign (if any) and
      those digits is '0'. */
  lemma NumeralShape(number: int, width: nat)
    ensures var r := Numeral(number, width);
            && |r| == Max(width, |PlainNumeral(number)|)
            && r[|r| - |Digits(Abs(number))|..] == Digits(Abs(number))
            && (number < 0 ==> r[0] == '-')
            && forall i :: (if number < 0 then 1 else 0) <= i < |r| - |Digits(Abs(number))| ==> r[i] == '0'
  {
    if number < 0 {
      var d := Digits(-number);
      assert Abs(number) == -number;
      var p := ZeroPad(d, width - 1);
      ZeroPadShape(d, width - 1);
      var r := "-" + p;
      assert Numeral(number, width) == r;
      assert |r| == 1 + |p|;
      assert r[|r| - |d|..] == p[|p| - |d|..];
      forall i | 1 <= i < |r| - |d|
        ensures r[i] == '0'
      {
        assert r[i] == p[i - 1];
      }
    } else {
      ZeroPadShape(Digits(number), width);
    }
  }

  /** The label text keeps the whole prefix, is never truncated to the
      width (its number part is the longer of the width and the plain
      notation), ends with the plain digits, and anything between prefix
      and digits is '0' (after the sign, if any). */
  lemma MakeAsnTextShape(prefix: string, number: int, leadingZeros: nat)
    ensures var t := MakeAsnText(prefix, number, leadingZeros);
            && |t| == |prefix| + Max(leadingZeros, |PlainNumeral(number)|)
            && t[..|prefix|] == prefix
            && t[|t| - |Digits(Abs(number))|..] == Digits(Abs(number))
            && (number < 0 ==> t[|prefix|] == '-')
            && forall i :: |prefix| + (if number < 0 then 1 else 0) <= i < |t| - |Digits(Abs(number))|
                 ==> t[i] == '0'
  {
    var n := Numeral(number, leadingZeros);
    NumeralShape(number, leadingZeros);
    var t := prefix + n;
    var d := Digits(Abs(number));
    var lead := if number < 0 then 1 else 0;
    assert t[|prefix|..] == n;
    assert t[|t| - |d|..] == n[|n| - |d|..];
    assert forall i :: |prefix| + lead <= i < |t| - |d| ==> t[i] == n[i - |prefix|];
  }

  /** Reads a number part back: an optional '-' followed by at least
      one decimal digit. */
  function ParseNumeral(body: string): Option<int> {
    if |body| > 1 && body[0] == '-' && AllDigits(body[1..]) then Some(0 - Value(body[1..]))
    else if |body| >= 1 && AllDigits(body) then Some(Value(body))
    else None
  }

  /** Reads a label text back: the prefix must match and the rest must be
      a number part. */
  function ParseAsnText(prefix: string, t: string): Option<int> {
    if |t| < |prefix| || t[..|prefix|] != prefix then None
    else ParseNumeral(t[|prefix|..])
  }

  lemma ParseNumeralOfNumeral(number: int, width: nat)
    ensures ParseNumeral(Numeral(number, width)) == Some(number)
  {
    if number < 0 {
      ParseNegativeNumeral(number, width);
    } else {
      ParseNonNegativeNumeral(number, width);
    }
  }

  lemma ParseNegativeNumeral(number: int, width: nat)
    requires number < 0
    ensures ParseNumeral(Numeral(number, width)) == Some(number)
  {
    var m: nat := -number;
    var p := ZeroPad(Digits(m), width - 1);
    PaddedValue(m, width - 1);
    assert Value(p) == m;
    ParseNegative(p);
    assert ParseNumeral("-" + p) == Some(number);
    NumeralNegative(number, width);
  }

  lemma ParseNonNegativeNumeral(number: int, width: nat)
    requires number >= 0
    ensures ParseNumeral(Numeral(number, width)) == Some(number)
  {
    var p := ZeroPad(Digits(number), width);
    NumeralNonNegative(number, width);
    PaddedValue(number, width);
    ParseNonNegative(p);
  }

  lemma NumeralNonNegative(number: int, width: nat)
    requires number >= 0
    ensures Numeral(number, width) == ZeroPad(Digits(number), width)
  {
  }

  lemma NumeralNegative(number: int, width: nat)
    requires number < 0
    ensures Numeral(number, width) == "-" + ZeroPad(Digits(-number), width - 1)
  {
  }

  lemma ParseNegative(p: string)
    requires 1 <= |p| && AllDigits(p)
    ensures ParseNumeral("-" + p) == Some(0 - Value(p))
  {
    assert ("-" + p)[1..] == p;
  }

  lemma ParseNonNegative(p: string)
    requires 1 <= |p| && AllDigits(p)
    ensures ParseNumeral(p) == Some(Value(p))
  {
    assert IsDigit(p[0]);
  }

  /** Every label text reads back to the number it was made from. */
  lemma ParseMakeAsnText(prefix: string, number: int, leadingZeros: nat)
    ensures ParseAsnText(prefix, MakeAsnText(prefix, number, leadingZeros)) == Some(number)
  {
    var t := MakeAsnText(prefix, number, leadingZeros);
    assert t[..|prefix|] == prefix;
    assert t[|prefix|..] == Numeral(number, leadingZeros);
    ParseNumeralOfNumeral(number, leadingZeros);
  }

  /** Different numbers never share a label text (same prefix and width). */
  lemma MakeAsnTextInjective(prefix: string, a: int, b: int, leadingZeros: nat)
    requires MakeAsnText(prefix, a, leadingZeros) == MakeAsnText(prefix, b, leadingZeros)
    ensures a == b
  {
    ParseMakeAsnText(prefix, a, leadingZeros);
    ParseMakeAsnText(prefix, b, leadingZeros);
  }

  /** For a number whose notation already fills the width, the text is
      exactly prefix and plain notation (123456 at width 5 stays 6 digits). */
  lemma WideNumberUnpadded(prefix: string, number: nat, leadingZeros: nat)
    requires |Digits(number)| >= leadingZeros
    ensures MakeAsnText(prefix, number, leadingZeros) == prefix + Digits(number)
  {
    NumeralNonNegative(number, leadingZeros);
  }

  /** A number shorter than the width is padded with zeros. */
  lemma AsnTextPaddedExample()
    ensures MakeAsnText("ASN", 1, 5) == "ASN00001"
  {
    assert Digits(1) == "1";
  }

  /** A number wider than the width is written in full. */
  lemma AsnTextWideExample()
    ensures MakeAsnText("ASN", 123456, 5) == "ASN123456"
  {
    assert Digits(123456) == "123456";
  }

}

=== FILE: decimal.dfy ===
/** Decimal notation of natural numbers: the digits a `d` format
    specification prints, their numeric value, and zero padding to a
    minimum width. */
module Decimal {

  predicate IsDigit(c: char) {
    '0' <= c <= '9'
  }

  predicate AllDigits(s: string) {
    forall i :: 0 <= i < |s| ==> IsDigit(s[i])
  }

  function DigitValue(c: char): (d: nat)
    requires IsDigit(c)
    ensures d < 10
  {
    c as int - '0' as int
  }

  function DigitChar(d: nat): (c: char)
    requires d < 10
    ensures IsDigit(c) && DigitValue(c) == d
  {
    ('0' as int + d) as char
  }

  /** Decimal notation of `n`, most significant digit first. */
  function Digits(n: nat): string
    decreases n
  {
    if n < 10 then [DigitChar(n)] else Digits(n / 10) + [DigitChar(n % 10)]
  }

  /** The number a string of decimal digits denotes (most significant first). */
  function Value(s: string): nat
    requires AllDigits(s)
    decreases |s|
  {
    if |s| == 0 then 0 else Value(s[..|s| - 1]) * 10 + DigitValue(s[|s| - 1])
  }

  /** A string of decimal digits without a superfluous leading zero. */
  predicate Canonical(s: string) {
    1 <= |s| && AllDigits(s) && (s[0] == '0' ==> |s| == 1)
  }

  function Zeros(k: nat): string {
    seq(k, _ => '0')
  }

  function Max(a: int, b: int): int {
    if a < b then b else a
  }

  /** `s` preceded by as many '0' as needed to reach `width` characters. */
  function ZeroPad(s: string, width: int): string {
    if width > |s| then Zeros(width - |s|) + s else s
  }

  /** The notation of `n` is the shortest one: never empty, all digits,
      and it starts with '0' only when it is the single digit of zero. */
  lemma {:induction false} DigitsCanonical(n: nat)
    ensures Canonical(Digits(n))
    ensures Digits(n)[0] == '0' ==> n == 0
    decreases n
  {
    if n >= 10 {
      DigitsCanonical(n / 10);
      var s := Digits(n);
      assert s == Digits(n / 10) + [DigitChar(n % 10)];
      assert s[0] == Digits(n / 10)[0];
    }
  }

  /** Padding never truncates: the result is as long as the longer of
      `width` and `s`, ends with `s`, and is '0' before it. */
  lemma ZeroPadShape(s: string, width: int)
    ensures var r := ZeroPad(s, width);
            && |r| == Max(width, |s|)
            && r[|r| - |s|..] == s
            && forall i :: 0 <= i < |r| - |s| ==> r[i] == '0'
  {
    var r := ZeroPad(s, width);
    if width > |s| {
      assert r[|r| - |s|..] == s;
    }
  }

  /** Reading back the digits of `n` gives `n`. */
  lemma {:induction false} ValueOfDigits(n: nat)
    ensures AllDigits(Digits(n))
    ensures Value(Digits(n)) == n
    decreases n
  {
    DigitsCanonical(n);
    if n >= 10 {
      var s := Digits(n);
      ValueOfDigits(n / 10);
      assert s[..|s| - 1] == Digits(n / 10);
    }
  }

  lemma {:induction false} CanonicalPositive(s: string)
    requires Canonical(s) && s[0] != '0'
    ensures Value(s) >= 1
    decreases |s|
  {
    if |s| > 1 {
      CanonicalPositive(s[..|s| - 1]);
    }
  }

  /** Every canonical digit string is the notation of its own value, so
      `Digits` is a bijection between naturals and canonical strings. */
  lemma {:induction false} DigitsOfValue(s: string)
    requires Canonical(s)
    ensures Digits(Value(s)) == s
    decreases |s|
  {
    if |s| > 1 {
      var init := s[..|s| - 1];
      var last := s[|s| - 1];
      assert Canonical(init) && init[0] != '0';
      CanonicalPositive(init);
      DigitsOfValue(init);
      var v := Value(s);
      assert v == Value(init) * 10 + DigitValue(last);
      assert v / 10 == Value(init) && v % 10 == DigitValue(last);
      assert DigitChar(DigitValue(last)) == last;
      assert s == init + [last];
    } else {
      assert DigitChar(DigitValue(s[0])) == s[0];
    }
  }

  lemma {:induction false} ValueOfZeros(k: nat)
    ensures AllDigits(Zeros(k))
    ensures Value(Zeros(k)) == 0
    decreases k
  {
    if k > 0 {
      assert Zeros(k)[..k - 1] == Zeros(k - 1);
      ValueOfZeros(k - 1);
    }
  }

  /** Leading zeros do not change the value of a digit string. */
  lemma {:induction false} ValueIgnoresLeadingZeros(k: nat, s: string)
    requires AllDigits(s)
    ensures AllDigits(Zeros(k) + s)
    ensures Value(Zeros(k) + s) == Value(s)
    decreases |s|
  {
    var t := Zeros(k) + s;
    assert AllDigits(t) by {
      forall i | 0 <= i < |t| ensures IsDigit(t[i]) {
        if i >= k { assert t[i] == s[i - k]; }
      }
    }
    if |s| == 0 {
      assert t == Zeros(k);
      ValueOfZeros(k);
    } else {
      assert t[..|t| - 1] == Zeros(k) + s[..|s| - 1];
      ValueIgnoresLeadingZeros(k, s[..|s| - 1]);
    }
  }

  /** Padding adds only zeros, so the padded notation still denotes `n`. */
  lemma PaddedValue(n: nat, width: int)
    ensures 1 <= |ZeroPad(Digits(n), width)|
    ensures AllDigits(ZeroPad(Digits(n), width))
    ensures Value(ZeroPad(Digits(n), width)) == n
  {
    var s := Digits(n);
    ValueOfDigits(n);
    DigitsCanonical(n);
    if width > |s| {
      ValueIgnoresLeadingZeros(width - |s|, s);
    }
  }

}

=== FILE: generate.dfy ===
/** `generate_pdf`: validation, pagination, row-major placement with
    calibration, and running numbering. Drawing is abstracted: every label
    the program would draw becomes a `Placement`, and every finished page
    (`showPage`) the sequence of placements drawn on it. */
module Generate {
  import opened Results
  import opened Decimal
  import opened AsnText
  import opened Sheet
  import opened Pagination

  /** User calibration in millimetres: a shift of the whole grid and a
      change of the column and row pitch. */
  datatype Calibration = Calibration(offsetX: real, offsetY: real, pitchDx: real, pitchDy: real)

  const NoCalibration: Calibration := Calibration(0.0, 0.0, 0.0, 0.0)

  /** Calibrated grid geometry in points. */
  datatype Grid = Grid(pitchX: real, pitchY: real, offX: real, offY: real)

  /** Base pitch plus the pitch deltas, and the offsets, converted to points. */
  function EffectiveGrid(layout: SheetLayout, cal: Calibration): Grid {
    Grid(layout.PitchX() + cal.pitchDx * Mm, layout.PitchY() + cal.pitchDy * Mm,
         cal.offsetX * Mm, cal.offsetY * Mm)
  }

  /** Bottom-left corner of the label in column `col`, row `row`: columns
      run rightwards from the left margin, rows downwards from the top
      margin in a coordinate system whose y axis points up. */
  function CornerX(layout: SheetLayout, grid: Grid, col: int): real {
    layout.marginLeft + col as real * grid.pitchX + grid.offX
  }

  function CornerY(layout: SheetLayout, grid: Grid, row: int): real {
    A4Height - layout.marginTop - layout.labelH - row as real * grid.pitchY + grid.offY
  }

  /** One drawn label: its page, grid cell, rectangle origin and text. */
  datatype Placement = Placement(page: nat, row: nat, col: nat, x: real, y: real, text: string)

  /** The arguments of one generation run. */
  datatype Job = Job(
    start: int,
    count: int,
    prefix: string,
    leadingZeros: int,
    layout: SheetLayout,
    calibration: Calibration)

  datatype GenError = CountNotPositive | StartNotPositive | LeadingZerosNegative | PrefixEmpty

  /** The finished document (one sequence of placements per page), the
      number of pages and the number the next run should start with. */
  datatype Generated = Generated(document: seq<seq<Placement>>, pages: int, nextNumber: int)

  /** What stays fixed while the pages are filled. */
  datatype Context = Context(layout: SheetLayout, grid: Grid, prefix: string, leadingZeros: nat)

  /** The label drawn for index `i` of page `page` carrying `number`. */
  function Place(ctx: Context, page: nat, i: nat, number: int): (p: Placement)
    requires ctx.layout.cols >= 1
  {
    var cell := CellOf(i, ctx.layout.cols);
    Placement(page, cell.row, cell.col,
              CornerX(ctx.layout, ctx.grid, cell.col), CornerY(ctx.layout, ctx.grid, cell.row),
              MakeAsnText(ctx.prefix, number, ctx.leadingZeros))
  }

  /** Index `i` of a page lands in the page's grid, in the cell whose
      row-major index is `i`, at that cell's calibrated corner. */
  lemma PlaceInCell(ctx: Context, page: nat, i: nat, number: int)
    requires ctx.layout.Valid() && i < ctx.layout.LabelsPerPage()
    ensures var pl := Place(ctx, page, i, number);
            && pl.page == page
            && pl.row < ctx.layout.rows && pl.col < ctx.layout.cols
            && pl.row * ctx.layout.cols + pl.col == i
            && pl.x == CornerX(ctx.layout, ctx.grid, pl.col)
            && pl.y == CornerY(ctx.layout, ctx.grid, pl.row)
  {
    CellInGrid(i, ctx.layout.cols, ctx.layout.rows);
    CellOfInverse(i, ctx.layout.cols);
  }

  /** What is drawn for index `i` of page `page` with number `number`.
      The page loops below only pass these three values along, so they are
      stated for any such function; `LabelAt` is the one `generate_pdf`
      uses. */
  type LabelFn = (nat, nat, int) -> Placement

  function LabelAt(ctx: Context): LabelFn
    requires ctx.layout.cols >= 1
  {
    (page: nat, i: nat, number: int) => Place(ctx, page, i, number)
  }

  /** The labels one page holds and the running number after them. */
  datatype PageRun = PageRun(labels: seq<Placement>, next: int)

  /** The inner loop: indices `i` up to `n` of page `page`, numbered from
      `current` on, one per label. */
  function FillPage(draw: LabelFn, page: nat, i: nat, n: int, current: int): (r: PageRun)
    ensures |r.labels| == Max(0, n - i)
    ensures r.next == current + |r.labels|
    ensures forall j :: 0 <= j < |r.labels| ==> r.labels[j] == draw(page, i + j, current + j)
    decreases n - i
  {
    if i >= n then PageRun([], current)
    else
      var rest := FillPage(draw, page, i + 1, n, current + 1);
      PageRun([draw(page, i, current)] + rest.labels, rest.next)
  }

  /** State after the outer loop: the finished pages, the running number
      and the labels still to place. */
  datatype DocRun = DocRun(pages: seq<seq<Placement>>, current: int, remaining: int)

  /** The outer loop over pages `page` .. `pages - 1`: each page takes
      `min(remaining, perPage)` labels. */
  function FillPages(draw: LabelFn, perPage: int, page: nat, pages: nat, current: int, remaining: int)
    : (r: DocRun)
    ensures |r.pages| == Max(0, pages - page)
    decreases pages - page
  {
    if page >= pages then DocRun([], current, remaining)
    else
      var n := Min(remaining, perPage);
      var run := FillPage(draw, page, 0, n, current);
      var rest := FillPages(draw, perPage, page + 1, pages, run.next, remaining - n);
      DocRun([run.labels] + rest.pages, rest.current, rest.remaining)
  }

  /** All labels in the order they are drawn. */
  function Flatten(document: seq<seq<Placement>>): seq<Placement>
  {
    if |document| == 0 then [] else document[0] + Flatten(document[1..])
  }

  /** One iteration of the page loop: with pages left, some label is
      left; the page takes `n` of them, a full page unless it is the last,
      and the page count of what is left drops by one. */
  lemma PageStep(remaining: nat, perPage: int, left: nat)
    requires perPage >= 1 && left >= 1 && left == CeilDiv(remaining, perPage)
    ensures remaining >= 1
    ensures var n := Min(remaining, perPage);
            && 1 <= n <= remaining
            && CeilDiv(remaining - n, perPage) == left - 1
            && (left > 1 ==> n == perPage)
  {
    if remaining > perPage {
      CeilDivStep(remaining, perPage);
    } else {
      CeilDivUnique(0, perPage, 0);
      CeilDivUnique(remaining, perPage, 1);
    }
  }

  /** Page `p` of what is left after one full page is page `p + 1` of
      the whole. */
  lemma ShiftedPageSize(remaining: int, perPage: int, p: int)
    ensures Min((remaining - perPage) - (p - 1) * perPage, perPage) == Min(remaining - p * perPage, perPage)
  {
    assert (p - 1) * perPage == p * perPage - perPage;
  }

  /** The page loop's totals: when the page count is the ceiling of the
      labels left, page `p` takes `min(remaining - p * perPage, perPage)`
      labels, the running number advances by all of them and nothing
      remains. */
  lemma {:induction false} FillPagesTotals(draw: LabelFn, perPage: int, page: nat, pages: nat,
                                           current: int, remaining: nat)
    requires perPage >= 1
    requires page <= pages && pages - page == CeilDiv(remaining, perPage)
    ensures FillPages(draw, perPage, page, pages, current, remaining).remaining == 0
    ensures FillPages(draw, perPage, page, pages, current, remaining).current == current + remaining
    ensures var doc := FillPages(draw, perPage, page, pages, current, remaining).pages;
            forall p :: 0 <= p < |doc| ==> |doc[p]| == Min(remaining - p * perPage, perPage)
    decreases pages - page
  {
    var r := FillPages(draw, perPage, page, pages, current, remaining);
    if page < pages {
      PageStep(remaining, perPage, pages - page);
      var n := Min(remaining, perPage);
      var run := FillPage(draw, page, 0, n, current);
      var rest := FillPages(draw, perPage, page + 1, pages, run.next, remaining - n);
      FillPagesTotals(draw, perPage, page + 1, pages, run.next, remaining - n);
      assert r == DocRun([run.labels] + rest.pages, rest.current, rest.remaining);
      forall p | 0 <= p < |r.pages|
        ensures |r.pages[p]| == Min(remaining - p * perPage, perPage)
      {
        if p > 0 {
          assert r.pages[p] == rest.pages[p - 1];
          ShiftedPageSize(remaining, perPage, p);
        }
      }
    } else {
      CeilDivUnique(0, perPage, 0);
    }
  }

  /** Label `i` of a page is the one for index `i` of page `page` with
      number `current + i`. */
  ghost predicate PageNumbered(draw: LabelFn, labels: seq<Placement>, page: nat, current: int)
  {
    forall i :: 0 <= i < |labels| ==> labels[i] == draw(page, i, current + i)
  }

  /** Pages numbered on from `current`, one page after the other: every
      page but the last holds `perPage` labels and the next page starts
      `perPage` numbers later. */
  ghost predicate PagesNumbered(draw: LabelFn, doc: seq<seq<Placement>>, page: nat, current: int, perPage: int)
    decreases |doc|
  {
    |doc| == 0
    || (&& PageNumbered(draw, doc[0], page, current)
        && (|doc| > 1 ==> |doc[0]| == perPage)
        && PagesNumbered(draw, doc[1..], page + 1, current + perPage, perPage))
  }

  /** In pages numbered on from `current`, label `i` of page `p` is the one
      for index `i` of page `page + p` with number
      `current + p * perPage + i`. */
  lemma {:induction false} PagesNumberedAt(draw: LabelFn, doc: seq<seq<Placement>>, page: nat, current: int,
                                           perPage: int, p: nat, i: nat)
    requires PagesNumbered(draw, doc, page, current, perPage)
    requires p < |doc| && i < |doc[p]|
    ensures doc[p][i] == draw(page + p, i, current + p * perPage + i)
    decreases p
  {
    if p > 0 {
      PagesNumberedAt(draw, doc[1..], page + 1, current + perPage, perPage, p - 1, i);
      assert doc[1..][p - 1] == doc[p];
      assert current + perPage + (p - 1) * perPage + i == current + p * perPage + i;
      assert page + 1 + (p - 1) == page + p;
    }
  }

  /** When the page count is the ceiling of the labels left, the pages
      are numbered on from `current`: each page gets consecutive numbers
      and every page but the last is full. */
  lemma {:induction false} FillPagesPlacesAll(draw: LabelFn, perPage: int, page: nat, pages: nat,
                                              current: int, remaining: nat)
    requires perPage >= 1
    requires page <= pages && pages - page == CeilDiv(remaining, perPage)
    ensures PagesNumbered(draw, FillPages(draw, perPage, page, pages, current, remaining).pages,
                          page, current, perPage)
    decreases pages - page
  {
    var r := FillPages(draw, perPage, page, pages, current, remaining);
    if page < pages {
      PageStep(remaining, perPage, pages - page);
      var n := Min(remaining, perPage);
      var run := FillPage(draw, page, 0, n, current);
      var rest := FillPages(draw, perPage, page + 1, pages, run.next, remaining - n);
      FillPagesPlacesAll(draw, perPage, page + 1, pages, run.next, remaining - n);
      assert r.pages == [run.labels] + rest.pages;
      assert r.pages[0] == run.labels && r.pages[1..] == rest.pages;
      assert PageNumbered(draw, run.labels, page, current);
      if |rest.pages| > 0 {
        assert run.next == current + perPage;
      }
    }
  }

  /** Label `k` in drawing order is the one for index `k mod perPage` of
      page `page + k div perPage` with number `current + k`. */
  ghost predicate InDrawingOrder(draw: LabelFn, labels: seq<Placement>, page: nat, current: int, perPage: int)
    requires perPage >= 1
  {
    forall k :: 0 <= k < |labels| ==>
      labels[k] == draw(page + k / perPage, k % perPage, current + k)
  }

  lemma ConsInDrawingOrder(draw: LabelFn, first: seq<Placement>, tail: seq<Placement>,
                           page: nat, current: int, perPage: int)
    requires perPage >= 1
    requires |first| <= perPage && (|tail| > 0 ==> |first| == perPage)
    requires forall i :: 0 <= i < |first| ==> first[i] == draw(page, i, current + i)
    requires InDrawingOrder(draw, tail, page + 1, current + |first|, perPage)
    ensures InDrawingOrder(draw, first + tail, page, current, perPage)
  {
    var labels := first + tail;
    forall k | 0 <= k < |labels|
      ensures labels[k] == draw(page + k / perPage, k % perPage, current + k)
    {
      if k < |first| {
        SmallDivMod(k, perPage);
        assert labels[k] == first[k];
      } else {
        assert labels[k] == tail[k - perPage];
        LaterPageInOrder(draw, tail, page, current, perPage, k);
      }
    }
  }

  /** Label `k` of a run, counted after one full page. */
  lemma LaterPageInOrder(draw: LabelFn, tail: seq<Placement>, page: nat, current: int, perPage: int, k: int)
    requires perPage >= 1
    requires perPage <= k < perPage + |tail|
    requires InDrawingOrder(draw, tail, page + 1, current + perPage, perPage)
    ensures tail[k - perPage] == draw(page + k / perPage, k % perPage, current + k)
  {
    var j := k - perPage;
    assert tail[j] == draw(page + 1 + j / perPage, j % perPage, current + perPage + j);
    DivModShift(k, perPage);
  }

  /** Read in drawing order, the pages hold exactly the labels left, and
      label `k` is the one for index `k mod perPage` of page
      `page + k div perPage` with number `current + k`. */
  lemma {:induction false} FillPagesInOrder(draw: LabelFn, perPage: int, page: nat, pages: nat,
                                            current: int, remaining: nat)
    requires perPage >= 1
    requires page <= pages && pages - page == CeilDiv(remaining, perPage)
    ensures |Flatten(FillPages(draw, perPage, page, pages, current, remaining).pages)| == remaining
    ensures InDrawingOrder(draw, Flatten(FillPages(draw, perPage, page, pages, current, remaining).pages),
                           page, current, perPage)
    decreases pages - page
  {
    var r := FillPages(draw, perPage, page, pages, current, remaining);
    if page < pages {
      PageStep(remaining, perPage, pages - page);
      var n := Min(remaining, perPage);
      var run := FillPage(draw, page, 0, n, current);
      var rest := FillPages(draw, perPage, page + 1, pages, run.next, remaining - n);
      FillPagesInOrder(draw, perPage, page + 1, pages, run.next, remaining - n);
      assert r.pages == [run.labels] + rest.pages;
      assert r.pages[1..] == rest.pages;
      var tail := Flatten(rest.pages);
      assert Flatten(r.pages) == run.labels + tail;
      ConsInDrawingOrder(draw, run.labels, tail, page, current, perPage);
    } else {
      CeilDivUnique(0, perPage, 0);
    }
  }

  /** `generate_pdf`. The checks run in the program's order before anything
      is produced; a valid job gets `ceil(count / perPage)` pages, one per
      iteration of the page loop, and the next number is `start + count`. */
  function GeneratePdf(job: Job): (r: Result<Generated, GenError>)
    requires job.layout.Valid()
    ensures r == Err(CountNotPositive) <==> job.count <= 0
    ensures r == Err(StartNotPositive) <==> job.count > 0 && job.start <= 0
    ensures r == Err(LeadingZerosNegative) <==> job.count > 0 && job.start > 0 && job.leadingZeros < 0
    ensures r == Err(PrefixEmpty)
            <==> job.count > 0 && job.start > 0 && job.leadingZeros >= 0 && |job.prefix| == 0
    ensures r.Ok? ==>
              && r.value.pages == |r.value.document|
              && r.value.pages * job.layout.LabelsPerPage() >= job.count
              && (r.value.pages - 1) * job.layout.LabelsPerPage() < job.count
              && r.value.nextNumber == job.start + job.count
  {
    if job.count <= 0 then Err(CountNotPositive)
    else if job.start <= 0 then Err(StartNotPositive)
    else if job.leadingZeros < 0 then Err(LeadingZerosNegative)
    else if |job.prefix| == 0 then Err(PrefixEmpty)
    else
      var perPage := job.layout.LabelsPerPage();
      ValidHasLabels(job.layout);
      var pages := CeilDiv(job.count, perPage);
      var run := FillPages(LabelAt(JobContext(job)), perPage, 0, pages, job.start, job.count);
      FillPagesTotals(LabelAt(JobContext(job)), perPage, 0, pages, job.start, job.count);
      Ok(Generated(run.pages, pages, run.current))
  }

  /** The fixed part of a valid job's page loop. */
  function JobContext(job: Job): Context
    requires job.leadingZeros >= 0
  {
    Context(job.layout, EffectiveGrid(job.layout, job.calibration), job.prefix, job.leadingZeros)
  }

  /** A successful run's document is the page loop run from page 0 and
      number `start` over `ceil(count / perPage)` pages. */
  lemma GeneratedDocument(job: Job)
    requires job.layout.Valid() && GeneratePdf(job).Ok?
    ensures job.leadingZeros >= 0 && job.count >= 1 && job.layout.LabelsPerPage() >= 1
    ensures var perPage := job.layout.LabelsPerPage();
            GeneratePdf(job).value.document
            == FillPages(LabelAt(JobContext(job)), perPage, 0, CeilDiv(job.count, perPage),
                         job.start, job.count).pages
  {
    ValidHasLabels(job.layout);
  }

  /** Label `k` of a valid job, in drawing order: index `k mod perPage` of
      page `k div perPage`, with number `start + k`. */
  function Expected(job: Job, k: nat): Placement
    requires job.layout.Valid() && job.leadingZeros >= 0
  {
    ValidHasLabels(job.layout);
    var perPage := job.layout.LabelsPerPage();
    Place(JobContext(job), k / perPage, k % perPage, job.start + k)
  }

  /** Labels in drawing order from page 0 and number `start` are the
      job's expected labels. */
  lemma InOrderExpected(job: Job, labels: seq<Placement>)
    requires job.layout.Valid() && job.leadingZeros >= 0 && job.layout.LabelsPerPage() >= 1
    requires InDrawingOrder(LabelAt(JobContext(job)), labels, 0, job.start, job.layout.LabelsPerPage())
    ensures forall k :: 0 <= k < |labels| ==> labels[k] == Expected(job, k)
  {
    var perPage := job.layout.LabelsPerPage();
    var ctx := JobContext(job);
    forall k | 0 <= k < |labels|
      ensures labels[k] == Expected(job, k)
    {
      assert labels[k] == LabelAt(ctx)(0 + k / perPage, k % perPage, job.start + k);
    }
  }

  /** A successful run draws exactly `count` labels, and the `k`-th of
      them (across all pages) is `Expected(job, k)`. */
  lemma GeneratedInOrder(job: Job)
    requires job.layout.Valid() && GeneratePdf(job).Ok?
    ensures job.leadingZeros >= 0
    ensures var labels := Flatten(GeneratePdf(job).value.document);
            && |labels| == job.count
            && forall k :: 0 <= k < |labels| ==> labels[k] == Expected(job, k)
  {
    var perPage := job.layout.LabelsPerPage();
    ValidHasLabels(job.layout);
    var pages := CeilDiv(job.count, perPage);
    var draw := LabelAt(JobContext(job));
    var run := FillPages(draw, perPage, 0, pages, job.start, job.count);
    GeneratedDocument(job);
    FillPagesInOrder(draw, perPage, 0, pages, job.start, job.count);
    InOrderExpected(job, Flatten(run.pages));
  }

  /** Label numbers run on from `start` in drawing order without a reset at
      page boundaries: the `k`-th label's text reads back as `start + k`,
      so no two labels of a run share a text. */
  lemma GeneratedNumbering(job: Job)
    requires job.layout.Valid() && GeneratePdf(job).Ok?
    ensures var labels := Flatten(GeneratePdf(job).value.document);
            && (forall k :: 0 <= k < |labels| ==>
                  ParseAsnText(job.prefix, labels[k].text) == Some(job.start + k))
            && (forall k, m :: 0 <= k < m < |labels| ==> labels[k].text != labels[m].text)
  {
    GeneratedInOrder(job);
    var labels := Flatten(GeneratePdf(job).value.document);
    forall k | 0 <= k < |labels|
      ensures ParseAsnText(job.prefix, labels[k].text) == Some(job.start + k)
    {
      ParseMakeAsnText(job.prefix, job.start + k, job.leadingZeros);
    }
  }

  /** Each page takes `min(remaining, perPage)` labels: every page but the
      last is full, the last holds at least one label, and (by
      `GeneratedInOrder`) the sizes add up to `count`. */
  lemma GeneratedPagePartition(job: Job)
    requires job.layout.Valid() && GeneratePdf(job).Ok?
    ensures var doc := GeneratePdf(job).value.document;
            var perPage := job.layout.LabelsPerPage();
            && |doc| >= 1
            && (forall p :: 0 <= p < |doc| ==> |doc[p]| == Min(job.count - p * perPage, perPage))
            && (forall p :: 0 <= p < |doc| - 1 ==> |doc[p]| == perPage)
            && 1 <= |doc[|doc| - 1]| <= perPage
  {
    var perPage := job.layout.LabelsPerPage();
    ValidHasLabels(job.layout);
    var pages := CeilDiv(job.count, perPage);
    var draw := LabelAt(JobContext(job));
    var doc := FillPages(draw, perPage, 0, pages, job.start, job.count).pages;
    GeneratedDocument(job);
    FillPagesTotals(draw, perPage, 0, pages, job.start, job.count);
    forall p | 0 <= p < |doc|
      ensures 1 <= |doc[p]| <= perPage && (p < |doc| - 1 ==> |doc[p]| == perPage)
    {
      PageSize(job.count, perPage, p);
    }
  }

  /** No page of a successful run holds more than `perPage` labels, and
      label `i` of page `p` is the one for index `i` of page `p` with
      number `start + p * perPage + i`. */
  lemma GeneratedLabels(job: Job)
    requires job.layout.Valid() && GeneratePdf(job).Ok?
    ensures job.leadingZeros >= 0
    ensures var doc := GeneratePdf(job).value.document;
            var perPage := job.layout.LabelsPerPage();
            && (forall p :: 0 <= p < |doc| ==> |doc[p]| <= perPage)
            && (forall p, i :: 0 <= p < |doc| && 0 <= i < |doc[p]| ==>
                  doc[p][i] == LabelAt(JobContext(job))(p, i, job.start + p * perPage + i))
  {
    ValidHasLabels(job.layout);
    GeneratedDocument(job);
    RunNumbered(LabelAt(JobContext(job)), job.layout.LabelsPerPage(), job.start, job.count);
  }

  /** A whole run of the page loop: no page holds more than `perPage`
      labels, and label `i` of page `p` is the one for index `i` of page
      `p` with number `start + p * perPage + i`. */
  lemma RunNumbered(draw: LabelFn, perPage: int, start: int, count: nat)
    requires perPage >= 1
    ensures var doc := FillPages(draw, perPage, 0, CeilDiv(count, perPage), start, count).pages;
            && (forall p :: 0 <= p < |doc| ==> |doc[p]| <= perPage)
            && (forall p, i :: 0 <= p < |doc| && 0 <= i < |doc[p]| ==>
                  doc[p][i] == draw(p, i, start + p * perPage + i))
  {
    var pages := CeilDiv(count, perPage);
    var doc: seq<seq<Placement>> := FillPages(draw, perPage, 0, pages, start, count).pages;
    FillPagesTotals(draw, perPage, 0, pages, start, count);
    FillPagesPlacesAll(draw, perPage, 0, pages, start, count);
    forall p | 0 <= p < |doc|
      ensures |doc[p]| <= perPage
    {
    }
    forall p: int, i: int | 0 <= p < |doc| && 0 <= i < |doc[p]|
      ensures doc[p][i] == draw(p, i, start + p * perPage + i)
    {
      PagesNumberedAt(draw, doc, 0, start, perPage, p, i);
    }
  }

  /** Every label of a page lies in the page's grid, in row-major order
      (`row * cols + col` is its index on the page), at the calibrated
      corner of its cell. */
  lemma GeneratedPlacements(job: Job)
    requires job.layout.Valid() && GeneratePdf(job).Ok?
    ensures job.leadingZeros >= 0
    ensures var doc := GeneratePdf(job).value.document;
            var grid := EffectiveGrid(job.layout, job.calibration);
            forall p, i :: 0 <= p < |doc| && 0 <= i < |doc[p]| ==>
              && doc[p][i].page == p
              && doc[p][i].row < job.layout.rows && doc[p][i].col < job.layout.cols
              && doc[p][i].row * job.layout.cols + doc[p][i].col == i
              && doc[p][i].x == CornerX(job.layout, grid, doc[p][i].col)
              && doc[p][i].y == CornerY(job.layout, grid, doc[p][i].row)
  {
    GeneratedLabels(job);
    PagesPlaced(JobContext(job), GeneratePdf(job).value.document, job.start);
  }

  /** Pages whose label `i` of page `p` is drawn for that index and page
      put every label in the page's grid, row-major, at its cell's
      calibrated corner. */
  lemma PagesPlaced(ctx: Context, doc: seq<seq<Placement>>, start: int)
    requires ctx.layout.Valid()
    requires forall p :: 0 <= p < |doc| ==> |doc[p]| <= ctx.layout.LabelsPerPage()
    requires forall p, i :: 0 <= p < |doc| && 0 <= i < |doc[p]| ==>
               doc[p][i] == LabelAt(ctx)(p, i, start + p * ctx.layout.LabelsPerPage() + i)
    ensures forall p, i :: 0 <= p < |doc| && 0 <= i < |doc[p]| ==>
              && doc[p][i].page == p
              && doc[p][i].row < ctx.layout.rows && doc[p][i].col < ctx.layout.cols
              && doc[p][i].row * ctx.layout.cols + doc[p][i].col == i
              && doc[p][i].x == CornerX(ctx.layout, ctx.grid, doc[p][i].col)
              && doc[p][i].y == CornerY(ctx.layout, ctx.grid, doc[p][i].row)
  {
    var perPage := ctx.layout.LabelsPerPage();
    forall p: int, i: int | 0 <= p < |doc| && 0 <= i < |doc[p]|
      ensures doc[p][i].page == p
      ensures doc[p][i].row < ctx.layout.rows && doc[p][i].col < ctx.layout.cols
      ensures doc[p][i].row * ctx.layout.cols + doc[p][i].col == i
      ensures doc[p][i].x == CornerX(ctx.layout, ctx.grid, doc[p][i].col)
      ensures doc[p][i].y == CornerY(ctx.layout, ctx.grid, doc[p][i].row)
    {
      assert i < |doc[p]| <= perPage;
      assert doc[p][i] == LabelAt(ctx)(p, i, start + p * perPage + i);
      PlaceInCell(ctx, p, i, start + p * perPage + i);
    }
  }

  /** With all deltas zero the grid is the sheet's own: base pitch, no
      offset, corners at margin plus whole pitches. */
  lemma ZeroCalibrationIsBase(layout: SheetLayout, row: int, col: int)
    ensures EffectiveGrid(layout, NoCalibration) == Grid(layout.PitchX(), layout.PitchY(), 0.0, 0.0)
    ensures CornerX(layout, EffectiveGrid(layout, NoCalibration), col)
            == layout.marginLeft + col as real * layout.PitchX()
    ensures CornerY(layout, EffectiveGrid(layout, NoCalibration), row)
            == A4Height - layout.marginTop - layout.labelH - row as real * layout.PitchY()
  {
  }

  /** Calibration is additive: a label's corner under `cal` is its
      uncalibrated corner moved by `col * pitchDx + offsetX` millimetres to
      the right and `offsetY - row * pitchDy` millimetres up, whatever the
      sign or size of the deltas. */
  lemma CalibrationShift(layout: SheetLayout, cal: Calibration, row: int, col: int)
    ensures CornerX(layout, EffectiveGrid(layout, cal), col)
            == CornerX(layout, EffectiveGrid(layout, NoCalibration), col)
               + (col as real * cal.pitchDx + cal.offsetX) * Mm
    ensures CornerY(layout, EffectiveGrid(layout, cal), row)
            == CornerY(layout, EffectiveGrid(layout, NoCalibration), row)
               + (cal.offsetY - row as real * cal.pitchDy) * Mm
  {
    var c := col as real;
    var r := row as real;
    assert c * (layout.PitchX() + cal.pitchDx * Mm) == c * layout.PitchX() + c * cal.pitchDx * Mm;
    assert r * (layout.PitchY() + cal.pitchDy * Mm) == r * layout.PitchY() + r * cal.pitchDy * Mm;
  }

  /** Neighbouring columns are one effective column pitch apart, and each
      row lies one effective row pitch below the previous one. */
  lemma UniformPitch(layout: SheetLayout, grid: Grid, row: int, col: int)
    ensures CornerX(layout, grid, col + 1) - CornerX(layout, grid, col) == grid.pitchX
    ensures CornerY(layout, grid, row) - CornerY(layout, grid, row + 1) == grid.pitchY
  {
    assert (col + 1) as real * grid.pitchX == col as real * grid.pitchX + grid.pitchX;
    assert (row + 1) as real * grid.pitchY == row as real * grid.pitchY + grid.pitchY;
  }

  /** 189 labels fill one Avery L4731 page; the 190th starts a second. */
  lemma AveryPageCounts(cal: Calibration)
    ensures var job := Job(1, 189, "ASN", 7, AveryL4731, cal);
            GeneratePdf(job).Ok? && GeneratePdf(job).value.pages == 1
            && GeneratePdf(job).value.nextNumber == 190
    ensures var job := Job(1, 190, "ASN", 7, AveryL4731, cal);
            GeneratePdf(job).Ok? && GeneratePdf(job).value.pages == 2
  {
    AveryGeometry();
    CeilDivExamples();
  }

}

=== FILE: pagination.dfy ===
/** Integer arithmetic of pagination: how many pages a number of labels
    needs and which grid cell an index within a page occupies. */
module Pagination {

  function Min(a: int, b: int): int {
    if a < b then a else b
  }

  /** Number of pages of `perPage` labels that hold `count` labels: the
      least `q` with `q * perPage >= count` (`math.ceil(count / perPage)`). */
  function CeilDiv(count: nat, perPage: int): (q: nat)
    requires perPage >= 1
    ensures q * perPage >= count
    ensures q == 0 || (q - 1) * perPage < count
  {
    var q := (count + perPage - 1) / perPage;
    var r := (count + perPage - 1) % perPage;
    assert q * perPage + r == count + perPage - 1;
    assert (q - 1) * perPage == q * perPage - perPage;
    q
  }

  lemma MulMonotone(a: int, b: int, k: int)
    requires a <= b && k >= 0
    ensures a * k <= b * k
  {
    assert b * k - a * k == (b - a) * k;
  }

  /** The two bounds of `CeilDiv` determine it: no other page count is
      both large enough and minimal. */
  lemma {:induction false} CeilDivUnique(count: nat, perPage: int, q: nat)
    requires perPage >= 1
    requires q * perPage >= count
    requires q == 0 || (q - 1) * perPage < count
    ensures q == CeilDiv(count, perPage)
  {
    var c := CeilDiv(count, perPage);
    if q < c {
      MulMonotone(q, c - 1, perPage);
    } else if c < q {
      MulMonotone(c, q - 1, perPage);
    }
  }

  /** Taking one full page off leaves one page fewer. */
  lemma CeilDivStep(count: nat, perPage: int)
    requires perPage >= 1 && count > perPage
    ensures CeilDiv(count, perPage) >= 2
    ensures CeilDiv(count - perPage, perPage) == CeilDiv(count, perPage) - 1
  {
    var q := CeilDiv(count, perPage);
    if q < 2 {
      MulMonotone(q, 1, perPage);
    }
    assert (q - 1) * perPage == q * perPage - perPage;
    assert (q - 2) * perPage == (q - 1) * perPage - perPage;
    CeilDivUnique(count - perPage, perPage, q - 1);
  }

  /** Page `p` of `CeilDiv(count, perPage)` pages, given
      `min(count - p * perPage, perPage)` labels, holds at least one and
      at most `perPage`, and every page but the last is full. */
  lemma PageSize(count: nat, perPage: int, p: nat)
    requires perPage >= 1 && p < CeilDiv(count, perPage)
    ensures var size := Min(count - p * perPage, perPage);
            && 1 <= size <= perPage
            && (p < CeilDiv(count, perPage) - 1 ==> size == perPage)
  {
    var q := CeilDiv(count, perPage);
    MulMonotone(p, q - 1, perPage);
    if p < q - 1 {
      MulMonotone(p + 1, q - 1, perPage);
      assert (p + 1) * perPage == p * perPage + perPage;
    }
  }

  /** Exactly full pages need no extra page. */
  lemma CeilDivOfMultiple(pages: nat, perPage: int)
    requires perPage >= 1
    ensures CeilDiv(pages * perPage, perPage) == pages
  {
    assert (pages - 1) * perPage == pages * perPage - perPage;
    CeilDivUnique(pages * perPage, perPage, pages);
  }

  lemma CeilDivExamples()
    ensures CeilDiv(189, 189) == 1
    ensures CeilDiv(190, 189) == 2
  {
    CeilDivOfMultiple(1, 189);
    CeilDivStep(190, 189);
    CeilDivUnique(1, 189, 1);
  }

  /** A grid position: row from the top, column from the left. */
  datatype Cell = Cell(row: nat, col: nat)

  /** Row-major fill order: index `i` on a page lies in row `i div cols`,
      column `i mod cols`. The cell determines the index back. */
  function CellOf(i: nat, cols: int): Cell
    requires cols >= 1
  {
    Cell(i / cols, i % cols)
  }

  /** The cell determines the index back: `i == row * cols + col`, with
      the column inside the grid. */
  lemma CellOfInverse(i: nat, cols: int)
    requires cols >= 1
    ensures CellOf(i, cols).row * cols + CellOf(i, cols).col == i
    ensures CellOf(i, cols).col < cols
  {
  }

  /** Every index within a page's capacity falls inside the grid. */
  lemma CellInGrid(i: nat, cols: int, rows: int)
    requires cols >= 1 && rows >= 1 && i < cols * rows
    ensures CellOf(i, cols).row < rows && CellOf(i, cols).col < cols
  {
    var c := CellOf(i, cols);
    CellOfInverse(i, cols);
    if c.row >= rows {
      MulMonotone(rows, c.row, cols);
    }
  }

  /** Distinct indices on one page occupy distinct cells. */
  lemma CellOfInjective(i: nat, j: nat, cols: int)
    requires cols >= 1 && CellOf(i, cols) == CellOf(j, cols)
    ensures i == j
  {
    CellOfInverse(i, cols);
    CellOfInverse(j, cols);
  }

  /** Every cell of the grid is reached by exactly the index `row * cols + col`. */
  lemma CellOfIndex(c: Cell, cols: int)
    requires cols >= 1 && c.col < cols
    ensures CellOf(c.row * cols + c.col, cols) == c
  {
    var i := c.row * cols + c.col;
    var d := CellOf(i, cols);
    CellOfInverse(i, cols);
    if d.row < c.row {
      MulMonotone(d.row + 1, c.row, cols);
    } else if d.row > c.row {
      MulMonotone(c.row + 1, d.row, cols);
    }
  }

  lemma CellExample()
    ensures CellOf(8, 7) == Cell(1, 1)
  {
  }

  /** Moving on by a whole page keeps the cell and advances the page. */
  lemma DivModShift(k: int, perPage: int)
    requires perPage >= 1 && k >= perPage
    ensures (k - perPage) / perPage == k / perPage - 1
    ensures (k - perPage) % perPage == k % perPage
  {
    var q := (k - perPage) / perPage;
    var r := (k - perPage) % perPage;
    assert k == (q + 1) * perPage + r;
    assert k / perPage == q + 1 && k % perPage == r by {
      DivModUnique(k, perPage, q + 1, r);
    }
  }

  lemma DivModUnique(k: int, d: int, q: int, r: int)
    requires d >= 1 && 0 <= r < d && k == q * d + r
    ensures k / d == q && k % d == r
  {
    var q' := k / d;
    var r' := k % d;
    assert q' * d + r' == q * d + r;
    if q' < q {
      MulMonotone(q' + 1, q, d);
    } else if q' > q {
      MulMonotone(q + 1, q', d);
    }
  }

  lemma SmallDivMod(k: int, perPage: int)
    requires perPage >= 1 && 0 <= k < perPage
    ensures k / perPage == 0 && k % perPage == k
  {
    DivModUnique(k, perPage, 0, k);
  }

}

=== FILE: results.dfy ===
/** Failure-carrying values used across the model: an optional value for
    number parsing that may fail, and a result for operations that raise
    a validation error in the program. */
module Results {

  datatype Option<+T> = None | Some(value: T)

  datatype Result<+T, +E> = Ok(value: T) | Err(error: E)

}

=== FILE: settings.dfy ===
/** The pure logic of the form around `generate_pdf`: the label/page
    amount derivation, the fixed calibration baseline added to the user's
    deltas, and the migration of stored calibration values written by
    older versions as absolute millimetres. */
module Settings {
  import opened Results
  import opened Sheet
  import opened Pagination
  import opened Generate

  /** The four calibration entries of the form. */
  datatype Axis = OffX | OffY | PitchDx | PitchDy

  /** Key of an entry in the settings record. */
  function Key(a: Axis): string {
    match a
    case OffX => "off_x"
    case OffY => "off_y"
    case PitchDx => "pitch_dx"
    case PitchDy => "pitch_dy"
  }

  function Component(c: Calibration, a: Axis): real {
    match a
    case OffX => c.offsetX
    case OffY => c.offsetY
    case PitchDx => c.pitchDx
    case PitchDy => c.pitchDy
  }

  /** `BASE_CALIBRATION_MM`: always added to the user's deltas when printing. */
  const BaseCalibration: Calibration := Calibration(-4.5, 7.0, 1.2, 0.42)

  /** What the four calibration entry fields hold, read as numbers: the
      value the field's text denotes, or `None` for text that is not a
      number. */
  datatype Fields = Fields(offX: Option<real>, offY: Option<real>, pitchDx: Option<real>, pitchDy: Option<real>)
  {
    function Get(a: Axis): Option<real> {
      match a
      case OffX => offX
      case OffY => offY
      case PitchDx => pitchDx
      case PitchDy => pitchDy
    }
  }

  const NeutralFields: Fields := Fields(Some(0.0), Some(0.0), Some(0.0), Some(0.0))

  datatype FieldError = NotANumber(axis: Axis)

  /** `_calibration`: the deltas read from the fields (the first field in
      form order that is not a number is reported) plus the baseline. */
  function EffectiveCalibration(fields: Fields): (r: Result<Calibration, FieldError>)
    ensures r.Ok? <==> forall a: Axis :: fields.Get(a).Some?
    ensures r.Ok? ==> forall a: Axis ::
              Component(r.value, a) == Component(BaseCalibration, a) + fields.Get(a).value
    ensures r == Err(NotANumber(OffX)) <==> fields.offX.None?
    ensures r == Err(NotANumber(OffY)) <==> fields.offX.Some? && fields.offY.None?
    ensures r == Err(NotANumber(PitchDx))
            <==> fields.offX.Some? && fields.offY.Some? && fields.pitchDx.None?
    ensures r == Err(NotANumber(PitchDy))
            <==> fields.offX.Some? && fields.offY.Some? && fields.pitchDx.Some? && fields.pitchDy.None?
  {
    if fields.offX.None? then assert fields.Get(OffX).None?; Err(NotANumber(OffX))
    else if fields.offY.None? then assert fields.Get(OffY).None?; Err(NotANumber(OffY))
    else if fields.pitchDx.None? then assert fields.Get(PitchDx).None?; Err(NotANumber(PitchDx))
    else if fields.pitchDy.None? then assert fields.Get(PitchDy).None?; Err(NotANumber(PitchDy))
    else
      Ok(Calibration(BaseCalibration.offsetX + fields.offX.value,
                     BaseCalibration.offsetY + fields.offY.value,
                     BaseCalibration.pitchDx + fields.pitchDx.value,
                     BaseCalibration.pitchDy + fields.pitchDy.value))
  }

  /** Zero user deltas print with exactly the baseline calibration. */
  lemma NeutralFieldsPrintBaseline()
    ensures EffectiveCalibration(NeutralFields) == Ok(BaseCalibration)
  {
  }

  /** A stored settings record, as far as calibration is concerned: for
      each key present, the number its value reads as (`None` if it does
      not read as a number). */
  type Record = map<string, Option<real>>

  /** Some calibration key is present and every present one reads as 0. */
  predicate StoredAllZero(rec: Record) {
    && (exists a: Axis :: Key(a) in rec)
    && forall a: Axis :: Key(a) in rec ==> rec[Key(a)] == Some(0.0)
  }

  /** Whether stored values are absolute millimetres: any tag other than
      "delta", except that an untagged record whose present values all read
      as 0 is taken as deltas. `tag` is the stored `calibration_mode`
      trimmed and lower-cased, "" when absent. */
  predicate LegacyAbsolute(tag: string, rec: Record) {
    tag != "delta" && !(tag == "" && StoredAllZero(rec))
  }

  /** One entry after loading: unchanged when the key is absent; a legacy
      absolute number becomes its distance from the baseline; otherwise the
      stored value is taken as it is. */
  function LoadField(legacy: bool, rec: Record, a: Axis, previous: Option<real>): Option<real> {
    if Key(a) !in rec then previous
    else if legacy && rec[Key(a)].Some? then Some(rec[Key(a)].value - Component(BaseCalibration, a))
    else rec[Key(a)]
  }

  /** The calibration part of `_apply_settings_from_dict`: the four fields
      after loading `rec`, given what they held before. */
  function LoadCalibration(tag: string, rec: Record, previous: Fields): Fields {
    var legacy := LegacyAbsolute(tag, rec);
    Fields(LoadField(legacy, rec, OffX, previous.offX),
           LoadField(legacy, rec, OffY, previous.offY),
           LoadField(legacy, rec, PitchDx, previous.pitchDx),
           LoadField(legacy, rec, PitchDy, previous.pitchDy))
  }

  lemma GetLoadCalibration(tag: string, rec: Record, previous: Fields, a: Axis)
    ensures LoadCalibration(tag, rec, previous).Get(a)
            == LoadField(LegacyAbsolute(tag, rec), rec, a, previous.Get(a))
  {
  }

  /** A record tagged "delta", or untagged with all values zero, keeps its
      stored values; absent keys leave their field as it was. */
  lemma LoadDeltaKeepsValues(tag: string, rec: Record, previous: Fields)
    requires tag == "delta" || (tag == "" && StoredAllZero(rec))
    ensures forall a: Axis :: LoadCalibration(tag, rec, previous).Get(a)
                              == if Key(a) in rec then rec[Key(a)] else previous.Get(a)
  {
    forall a: Axis
      ensures LoadCalibration(tag, rec, previous).Get(a)
              == if Key(a) in rec then rec[Key(a)] else previous.Get(a)
    {
      GetLoadCalibration(tag, rec, previous, a);
    }
  }

  /** Any other record is legacy absolute: each value that reads as a
      number becomes that number minus the baseline of its axis; other
      values are kept as they are and absent keys leave their field. */
  lemma LoadLegacyConverts(tag: string, rec: Record, previous: Fields)
    requires tag != "delta" && !(tag == "" && StoredAllZero(rec))
    ensures forall a: Axis :: Key(a) in rec && rec[Key(a)].Some? ==>
              LoadCalibration(tag, rec, previous).Get(a)
              == Some(rec[Key(a)].value - Component(BaseCalibration, a))
    ensures forall a: Axis :: Key(a) in rec && rec[Key(a)].None? ==>
              LoadCalibration(tag, rec, previous).Get(a) == None
    ensures forall a: Axis :: Key(a) !in rec ==>
              LoadCalibration(tag, rec, previous).Get(a) == previous.Get(a)
  {
    forall a: Axis {
      GetLoadCalibration(tag, rec, previous, a);
    }
  }

  /** Migrating a complete legacy record and adding the baseline back
      prints with exactly the absolute values the record held. */
  lemma LegacyRoundTrip(tag: string, rec: Record, previous: Fields)
    requires tag != "delta" && !(tag == "" && StoredAllZero(rec))
    requires forall a: Axis :: Key(a) in rec && rec[Key(a)].Some?
    ensures var r := EffectiveCalibration(LoadCalibration(tag, rec, previous));
            r.Ok? && forall a: Axis :: Component(r.value, a) == rec[Key(a)].value
  {
    LoadLegacyConverts(tag, rec, previous);
  }

  /** `_settings_to_dict`, calibration part: the current field values
      under their keys, tagged "delta". */
  function SavedRecord(fields: Fields): Record {
    map[Key(OffX) := fields.offX, Key(OffY) := fields.offY,
        Key(PitchDx) := fields.pitchDx, Key(PitchDy) := fields.pitchDy]
  }

  const SavedTag: string := "delta"

  /** Saving and loading again restores every field, whatever it held
      before loading. */
  lemma SaveLoadRoundTrip(fields: Fields, previous: Fields)
    ensures LoadCalibration(SavedTag, SavedRecord(fields), previous) == fields
  {
    var rec := SavedRecord(fields);
    LoadDeltaKeepsValues(SavedTag, rec, previous);
    assert forall a: Axis :: Key(a) in rec && rec[Key(a)] == fields.Get(a);
    var loaded := LoadCalibration(SavedTag, rec, previous);
    assert loaded.Get(OffX) == fields.offX && loaded.Get(OffY) == fields.offY;
    assert loaded.Get(PitchDx) == fields.pitchDx && loaded.Get(PitchDy) == fields.pitchDy;
  }

  /** `DEFAULT_SETTINGS`, calibration part: all four "0.0", no tag. */
  const DefaultRecord: Record := SavedRecord(NeutralFields)

  const DefaultTag: string := ""

  /** Loading the defaults (fresh install, reset) gives zero deltas, so
      printing uses exactly the baseline. */
  lemma DefaultsAreNeutral(previous: Fields)
    ensures LoadCalibration(DefaultTag, DefaultRecord, previous) == NeutralFields
    ensures EffectiveCalibration(LoadCalibration(DefaultTag, DefaultRecord, previous)) == Ok(BaseCalibration)
  {
    assert StoredAllZero(DefaultRecord) by {
      assert Key(OffX) in DefaultRecord;
    }
    LoadDeltaKeepsValues(DefaultTag, DefaultRecord, previous);
    SaveLoadRoundTrip(NeutralFields, previous);
  }

  /** How the amount is entered: a number of labels or of A4 sheets. */
  datatype CountError =
    | PagesNotANumber | PagesNotPositive | LabelsNotANumber | LabelsNotPositive

  /** `_effective_count_and_pages`: in "pages" mode the sheet count is
      read and every sheet is full; in any other mode the label count is
      read and the sheets are its ceiling. Only the field of the active
      mode is read. */
  function EffectiveCountAndPages(mode: string, labelsField: Option<int>, pagesField: Option<int>)
    : (r: Result<(int, int), CountError>)
    ensures r.Ok? <==> if mode == "pages" then pagesField.Some? && pagesField.value > 0
                       else labelsField.Some? && labelsField.value > 0
    ensures mode == "pages" && pagesField.None? ==> r == Err(PagesNotANumber)
    ensures mode != "pages" && labelsField.None? ==> r == Err(LabelsNotANumber)
    ensures mode == "pages" && pagesField.Some? && pagesField.value <= 0 ==> r == Err(PagesNotPositive)
    ensures mode != "pages" && labelsField.Some? && labelsField.value <= 0 ==> r == Err(LabelsNotPositive)
    ensures r.Ok? ==>
              && r.value.0 >= 1
              && r.value.1 * AveryL4731.LabelsPerPage() >= r.value.0
              && (r.value.1 - 1) * AveryL4731.LabelsPerPage() < r.value.0
    ensures r.Ok? && mode == "pages" ==>
              r.value == (pagesField.value * AveryL4731.LabelsPerPage(), pagesField.value)
    ensures r.Ok? && mode != "pages" ==> r.value.0 == labelsField.value
  {
    if mode == "pages" then
      if pagesField.None? then Err(PagesNotANumber)
      else if pagesField.value <= 0 then Err(PagesNotPositive)
      else
        var pages := pagesField.value;
        assert (pages - 1) * 189 == pages * 189 - 189;
        Ok((pages * AveryL4731.LabelsPerPage(), pages))
    else
      if labelsField.None? then Err(LabelsNotANumber)
      else if labelsField.value <= 0 then Err(LabelsNotPositive)
      else
        var count := labelsField.value;
        Ok((count, CeilDiv(count, AveryL4731.LabelsPerPage())))
  }

  /** The sheet count shown in the form is the number of pages the
      generator then produces for that label count. */
  lemma PagesShownArePagesGenerated(mode: string, labelsField: Option<int>, pagesField: Option<int>,
                                    start: int, prefix: string, leadingZeros: int, cal: Calibration)
    requires EffectiveCountAndPages(mode, labelsField, pagesField).Ok?
    requires start > 0 && leadingZeros >= 0 && |prefix| > 0
    ensures var (count, pages) := EffectiveCountAndPages(mode, labelsField, pagesField).value;
            var r := GeneratePdf(Job(start, count, prefix, leadingZeros, AveryL4731, cal));
            r.Ok? && r.value.pages == pages && r.value.nextNumber == start + count
  {
    var (count, pages) := EffectiveCountAndPages(mode, labelsField, pagesField).value;
    AveryGeometry();
    var r := GeneratePdf(Job(start, count, prefix, leadingZeros, AveryL4731, cal));
    CeilDivUnique(count, 189, r.value.pages);
    CeilDivUnique(count, 189, pages);
  }

}

=== FILE: sheet.dfy ===
/** Physical units and the label-sheet geometry. Lengths are in points
    (1/72 inch), the unit of the PDF page; `real` keeps them exact. */
module Sheet {

  /** One millimetre and one centimetre in points. */
  const Mm: real := 72.0 / 25.4
  const Cm: real := 10.0 * Mm

  /** Height of an ISO A4 page (297 mm) in points. */
  const A4Height: real := 29.7 * Cm

  /** A sheet product: a `cols` x `rows` grid of `labelW` x `labelH`
      labels separated by a base gap, the top-left label at the margins. */
  datatype SheetLayout = SheetLayout(
    name: string,
    cols: int,
    rows: int,
    labelW: real,
    labelH: real,
    gapX: real,
    gapY: real,
    marginLeft: real,
    marginTop: real)
  {
    /** A grid with at least one cell. */
    predicate Valid() {
      cols >= 1 && rows >= 1
    }

    function LabelsPerPage(): int {
      cols * rows
    }

    /** Distance from one column (row) of labels to the next. */
    function PitchX(): real {
      labelW + gapX
    }

    function PitchY(): real {
      labelH + gapY
    }
  }

  /** Avery Zweckform L4731 / L4731REV: 7 x 27 labels of 25.4 mm x 10 mm. */
  const AveryL4731: SheetLayout := SheetLayout(
    "Avery Zweckform L4731 / L4731REV (7x27, 25.4mm x 10mm)",
    7,
    27,
    25.4 * Mm,
    10.0 * Mm,
    0.25 * Cm,
    0.0 * Cm,
    0.85 * Cm,
    1.35 * Cm)

  /** A valid layout has at least one label per page. */
  lemma ValidHasLabels(layout: SheetLayout)
    requires layout.Valid()
    ensures layout.LabelsPerPage() >= layout.cols && layout.LabelsPerPage() >= layout.rows
  {
    assert layout.cols * layout.rows - layout.cols == layout.cols * (layout.rows - 1);
    assert layout.cols * layout.rows - layout.rows == (layout.cols - 1) * layout.rows;
  }

  lemma AveryGeometry()
    ensures AveryL4731.Valid()
    ensures AveryL4731.LabelsPerPage() == 189
    ensures AveryL4731.labelW == 72.0
    ensures AveryL4731.PitchX() == 27.9 * Mm
    ensures AveryL4731.PitchY() == 10.0 * Mm
  {
  }

}
